=== FILE: README.md ===
# SargeSharp argument parser — Dafny model

This project models the core of SargeSharp, a small C# command-line argument parser.
A `Sarge` object holds a registry of flag definitions. Each definition has a short
name, a long name, a description and a flag saying whether the flag takes a value.
`ParseArguments` makes one left-to-right pass over the argument vector:

- a token that follows a value-taking flag is bound verbatim as that flag's value;
- a `--name` token is looked up by long name;
- a `-abc` token is walked character by character, one short-name lookup each;
- any other non-empty token that does not start with `-` is appended to the text
  arguments (the empty token and a lone `-` abort, see below).

The object also has a strict or permissive mode. Strict mode rejects unknown flags and
any flag that comes after a text argument. Permissive mode skips unknown flags and
parses a flag after text like any other. The queries
`GetFlag`, `Exists`, `GetTextArgument` and `ParsedFlags` read what passes left behind.

The model is functional. The object is an immutable record (`Registry.Sarge`) and each
registered flag is an `Argument` carrying its definition and its result fields
(`parsed`, `value`). `Parser.ParseArguments` starts from the object's current state,
because the source never resets results between passes. It returns either the new
state or an `Abort`. An `Abort` holds the error kind and the state as the exception
left it: everything the pass changed before the throw stays in the object.

Every way the pass can throw is an `ErrorKind`:

- `FlagsAfterText`, `UnknownLongFlag`, `UnknownShortFlag` and `ValueFlagNotLast` are
  the source's explicit throws;
- `EmptyToken` is the first-character `Substring` on an empty token;
- `LoneDash` is the two-character `Substring` on the token `-`. It is reached only
  after the strict ordering check;
- `AmbiguousFlag` is `SingleOrDefault` finding more than one record for a name.

The queries return `Queries.QueryError` for the same ambiguity. They also return it for
a negative text-argument index, which passes the `index < Count` test and then throws
in the list indexer.

Modules: `Wrappers` (Option, Result), `Registry` (records, lookups, registration),
`Parser` (the pass), `Queries`, `ParserProperties` (lemmas) and `Scenarios` (runs
against the registrations of the demonstration program in `SargeTest/Program.cs`).

Behaviour of the code worth noting:

- A value-taking short flag inside a cluster aborts in permissive mode too
  (`SargeSharp/Sarge.cs:118-125`).
- A value-taking flag given as the last token is marked and counted, and keeps whatever
  value an earlier pass left in it (`ValueFlagAsLastToken`).
- Results and text arguments add up across passes on the same object: nothing clears
  them when a pass starts (`SargeSharp/Sarge.cs:44-50`).
- Every lookup uses `SingleOrDefault`, so a name that several records carry makes the
  pass or the query throw (`SargeSharp/Sarge.cs:76`, `104`, `155`, `170`).

## Model

| member | source | states |
|---|---|---|
| Registry.Select | SargeSharp/Sarge.cs:76-77 | a name lookup answers Missing exactly when no record has the name, Duplicate exactly when two records have it, and otherwise the one record that has it |
| Registry.SetArgument | SargeSharp/Sarge.cs:23-34 | registration appends one record with the given definition and cleared results, and leaves every earlier record and all other state as it was |
| Registry.SetArguments | SargeSharp/Sarge.cs:36-42 | batch registration appends one record per given definition, in order; only the definition fields are copied and the new records start with no value and unseen |
| Registry.RegisterThenSelect | SargeSharp/Sarge.cs:23-34 | after registering, a name the new record does not carry resolves as before; a name that was absent now resolves to the new record; a name already present becomes a duplicate, since there is no uniqueness check |
| Registry.SelectNamesOnly | SargeSharp/Sarge.cs:104 | a lookup gives the same answer on two registries with the same definitions, whatever their results |
| Parser.Mark | SargeSharp/Sarge.cs:86-88 | a match marks exactly that record seen and raises the counter by exactly one; nothing else changes |
| Parser.Bind | SargeSharp/Sarge.cs:56-61 | binding stores the token as the pending record's value and changes nothing else |
| Parser.LongFlag | SargeSharp/Sarge.cs:72-95 | a long-flag token never touches the text arguments; when it aborts, it aborts before changing anything; when it succeeds, it only adds results |
| Parser.Cluster | SargeSharp/Sarge.cs:96-133 | a cluster walk never touches the text arguments, only adds results, and stores no value in any record, whether it finishes or aborts; only the token after it can supply a value |
| Parser.Step | SargeSharp/Sarge.cs:54-140 | one token, in any branch, keeps the mode and the definitions, and only adds results, whether it succeeds or aborts |
| Parser.Run | SargeSharp/Sarge.cs:50-141 | the pass over all tokens keeps the mode and the definitions; flags once seen stay seen, text arguments are only appended, and the counter never decreases, up to the point of any abort |
| Parser.ParseArguments | SargeSharp/Sarge.cs:44-146 | a finished pass marks the object parsed, even with a value still pending; an aborted pass leaves the parsed marker as it was; either way results only grow |
| Queries.GetFlag | SargeSharp/Sarge.cs:150-162 | before any pass, reports not found; afterwards, fails exactly on an ambiguous name and reports found exactly when one record has the name (long or short) and was seen; it returns that record's value only when the flag takes one |
| Queries.Exists | SargeSharp/Sarge.cs:166-175 | before any pass, answers false; afterwards, fails exactly on an ambiguous name and answers true exactly when one record has the name (long or short) and was seen |
| Queries.GetTextArgument | SargeSharp/Sarge.cs:181-191 | returns the text argument at an index inside the list, nothing past its end, and fails on a negative index; it does not look at the parsed marker |
| ParserProperties.NoTokens | SargeSharp/Sarge.cs:143-145 | an empty argument vector changes no result and only marks the object parsed |
| ParserProperties.PendingTokenIsValue | SargeSharp/Sarge.cs:56-61 | with a value pending, the next token becomes the value whatever its shape, is not classified, and is not added to the text arguments |
| ParserProperties.EmptyTokenAborts | SargeSharp/Sarge.cs:62 | with no value pending, an empty token aborts before any change |
| ParserProperties.StrictFlagAfterTextAborts | SargeSharp/Sarge.cs:64-68 | in strict mode, a dash token after a text argument aborts before any lookup |
| ParserProperties.LoneDashAborts | SargeSharp/Sarge.cs:72 | the token `-` aborts instead of being treated as text or as an empty cluster |
| ParserProperties.UnknownLongFlagStrict | SargeSharp/Sarge.cs:76-83 | in strict mode, an unregistered long name aborts with nothing changed |
| ParserProperties.UnknownLongFlagSkipped | SargeSharp/Sarge.cs:76-79 | in permissive mode, an unregistered long name is skipped: the pass goes on from the same state with no value pending |
| ParserProperties.LongValueFlagTakesNextToken | SargeSharp/Sarge.cs:86-94 | a registered value-taking long flag is marked, counted once, and takes the following token as its value |
| ParserProperties.LongPlainFlag | SargeSharp/Sarge.cs:86-94 | a registered long flag that takes no value is marked and counted once, and the next token is classified afresh |
| ParserProperties.DuplicateLongFlagAborts | SargeSharp/Sarge.cs:76 | a long name that several records carry aborts the token, in either mode, with nothing changed |
| ParserProperties.RepeatedFlagLastValueWins | SargeSharp/Sarge.cs:86-94 | a value flag given twice is counted twice and keeps the second value |
| ParserProperties.ValueFlagAsLastToken | SargeSharp/Sarge.cs:143-145 | a value flag as the final token still finishes the pass, is marked and counted, and keeps its previous value |
| ParserProperties.ClusterCountsEachMatch | SargeSharp/Sarge.cs:101-116 | a cluster that finishes adds exactly one to the counter per registered character; in strict mode that is every character |
| ParserProperties.ClusterValueOnlyAtEnd | SargeSharp/Sarge.cs:118-125 | in a cluster that finishes, no character before the last names a value-taking flag |
| ParserProperties.ClusterPendingIsLast | SargeSharp/Sarge.cs:126-130 | a cluster leaves a value pending only for the value-taking flag named by its last character |
| ParserProperties.ClusterLastValuePending | SargeSharp/Sarge.cs:126-130 | conversely, a cluster that finishes with a uniquely registered value-taking flag as its last character leaves exactly that flag's record pending |
| ParserProperties.ClusterPlainShortFlag | SargeSharp/Sarge.cs:103-118 | a cluster character naming exactly one registered flag that takes no value marks and counts that flag, and the walk continues with the next character from the marked object |
| ParserProperties.ClusterMarksNamed | SargeSharp/Sarge.cs:101-116 | a cluster that finishes leaves seen every record that one of its characters names, and marks no other record that was unseen before |
| ParserProperties.DuplicateShortFlagAborts | SargeSharp/Sarge.cs:104 | a cluster character that several records carry as short name aborts the walk, in either mode, before that character changes anything |
| ParserProperties.UnknownShortFlagStrict | SargeSharp/Sarge.cs:104-111 | in strict mode, an unregistered cluster character aborts |
| ParserProperties.UnknownShortFlagSkipped | SargeSharp/Sarge.cs:104-107 | in permissive mode, an unregistered cluster character is skipped and the walk goes on |
| ParserProperties.ValueFlagInsideClusterAborts | SargeSharp/Sarge.cs:114-125 | in either mode, a value-taking short flag before the end of its cluster aborts after being marked and counted |
| ParserProperties.TextTokensAppended | SargeSharp/Sarge.cs:136-140 | tokens that are not dash tokens are appended to the text arguments in order, with everything else unchanged |
| ParserProperties.TextRoundTrip | SargeSharp/Sarge.cs:181-188 | after a pass over such tokens, each one is returned by the text-argument query at its position after the earlier text arguments |
| ParserProperties.StrictTextTail | SargeSharp/Sarge.cs:64-68 | in strict mode, once a text argument exists, a pass that finishes has taken every remaining token as text and matched no flag |
| ParserProperties.StrictTextIsSuffix | SargeSharp/Sarge.cs:62-68 | in strict mode, the text arguments a finished pass collects are a suffix of its tokens |
| ParserProperties.PermissiveErrors | SargeSharp/Sarge.cs:64-111 | in permissive mode, a pass never aborts for ordering or unknown names; only malformed tokens, ambiguous names and a value flag inside a cluster abort it |
| ParserProperties.PermissiveClusterErrors | SargeSharp/Sarge.cs:100-125 | in permissive mode, a cluster walk aborts only for an ambiguous name or a value flag before the end |
| ParserProperties.ExistsAgreesWithGetFlag | SargeSharp/Sarge.cs:150-175 | `Exists` fails exactly when `GetFlag` fails, and otherwise answers what `GetFlag` reports as found |
| ParserProperties.NothingSeenBeforeParse | SargeSharp/Sarge.cs:153 | while the parsed marker is unset, both flag queries report not found; a pass that aborts on such an object leaves the marker unset, so the flags it marked before the throw stay invisible to both queries |
| ParserProperties.LongFlagRoundTrip | SargeSharp/Sarge.cs:150-162 | after parsing `--name value` for a uniquely named value flag, `GetFlag` returns that value, `Exists` is true, and `ParsedFlags` has grown by one |
| ParserProperties.StepCountsMatches | SargeSharp/Sarge.cs:72-133 | one token with nothing pending raises the counter by the number of its registered names (one for a known long name, one per known cluster character) and leaves a value pending exactly when its long name or its last cluster character names a value-taking flag |
| ParserProperties.RunCountsMatches | SargeSharp/Sarge.cs:50-141 | a pass that goes through raises the counter by exactly the matches its tokens count, skipping tokens taken as values; a repeated flag counts each time |
| ParserProperties.ParsedFlagsCountsMatches | SargeSharp/Sarge.cs:21 | `ParsedFlags` after a finished pass is its earlier value plus the number of flag matches in the tokens, computed from the registered names alone |
| ParserProperties.NewSargeAnswersNothing | SargeSharp/Sarge.cs:11-17 | a freshly constructed object reports every flag absent, has no text argument at any index, and has counted no flag |
| Scenarios.DemoLongLookups | SargeSharp/Sarge.cs:76 | in the demonstration registry, `--h` finds no flag: long lookup never uses short names |
| Scenarios.DemoQueryLookups | SargeSharp/Sarge.cs:155 | in the demonstration registry, a query for the empty name finds the long-only `snake`, because its short name is empty |
| Scenarios.KittensParse | SargeTest/Program.cs:37-49 | on the demonstration registry, `--kittens cat foo` finishes with `kittens` marked and bound to `cat`, `foo` as the only text argument, and nothing else changed |
| Scenarios.KittensWithText | SargeTest/Program.cs:37-49 | `--kittens cat foo` counts one flag, binds `cat` under both names, and leaves `foo` as text argument 0 |
| Scenarios.ClusterParse | SargeSharp/Sarge.cs:100-130 | on the demonstration registry, `-hk cat` finishes with `help` and `kittens` marked, `cat` bound to `kittens`, and no text argument |
| Scenarios.ClusterEndingInValueFlag | SargeSharp/Sarge.cs:100-130 | `-hk cat` matches both flags and binds `cat` to `kittens` |
| Scenarios.ValueFlagFirstInCluster | SargeSharp/Sarge.cs:118-125 | `-kh cat` aborts in both modes, with `k` already counted |
| Scenarios.ShortNameAsLongFlag | SargeSharp/Sarge.cs:72-84 | `--h` aborts in strict mode and is skipped in permissive mode |
| Scenarios.FlagAfterText | SargeSharp/Sarge.cs:64-68 | `pos1 -h` aborts in strict mode; in permissive mode it yields one text argument and `help` seen |
| Scenarios.BogusLongFlag | SargeSharp/Sarge.cs:77-83 | `--bogus` aborts in strict mode; in permissive mode it leaves no flag counted and no text argument |
| Scenarios.UnknownClusterCharacter | SargeSharp/Sarge.cs:104-111 | `-s` aborts in strict mode and is skipped in permissive mode |
| Scenarios.LongOnlyFlag | SargeSharp/Sarge.cs:166-175 | after `--snake`, both `Exists("snake")` and `Exists("")` are true |
| Scenarios.MalformedTokens | SargeSharp/Sarge.cs:62-72 | an empty token and a lone `-` both abort |

## Left out

- `PrintHelp`, `Description` and `Usage`: console output and display strings. The model has no I/O.
- The demonstration program's `Main`: it only prints. Its registrations appear as `Scenarios.Demo`.
- Exception messages: the model records which error occurs, not its wording.
- The `out` parameters of `GetFlag` and `GetTextArgument`: each query returns its bool and its `out` string together as one value (`FlagAnswer`, or an `Option`).
- Parser.Mark: `flagCounter` is a 32-bit `int` in the source and is modelled as an unbounded `nat`. Wrap-around after 2^31 matches is not modelled.
- Parser.Cluster: the source walks UTF-16 code units; the model walks Dafny characters. A character outside the Basic Multilingual Plane is one lookup here and two in the source.
- Null names and null tokens: the model's strings are never null. The source only checks for null in `PrintHelp`.
- Reference aliasing between `Argument` objects: records are addressed by their position in the registry. `SetArguments` copies its inputs, so no aliasing arises.
- Concurrency: the source has none.

=== FILE: parser.dfy ===
/** `ParseArguments`: the single left-to-right pass over the argument vector that binds
    values, matches `--long` flags and `-abc` clusters, and collects text arguments. */
module Parser {
  import opened Wrappers
  import opened Registry

  /** Why a pass aborted: each explicit `throw` of the source, plus the exceptions the
      framework raises (`Substring` out of range, `SingleOrDefault` on several matches). */
  datatype ErrorKind =
    | EmptyToken                      // first-character test on ""
    | FlagsAfterText(token: string)   // strict mode, flag after a text argument
    | LoneDash                        // two-character test on "-"
    | UnknownLongFlag(name: string)   // strict mode, `--name` not registered
    | UnknownShortFlag(flag: char)    // strict mode, cluster character not registered
    | AmbiguousFlag(key: Key)         // several records answer to the name
    | ValueFlagNotLast(flag: char)    // value-taking short flag inside a cluster

  /** An aborted pass: the error and the object as the exception left it (all the
      mutations made before the throw stay in place). */
  datatype Abort = Abort(kind: ErrorKind, partial: Sarge)

  /** State carried between tokens: the object, and the record awaiting a value
      (`expectValue` together with `last_arg`). */
  datatype Progress = Progress(s: Sarge, pending: Option<nat>)

  predicate PendingOk(s: Sarge, pending: Option<nat>)
  {
    pending.Some? ==> pending.value < |s.allArgs|
  }

  /** `r` is `s` after some parsing: same mode and definitions, results only added to
      (a flag once seen stays seen, text arguments only appended, the counter only
      grows). Every step of a pass, successful or aborted, keeps this relation. */
  predicate Grows(s: Sarge, r: Sarge)
  {
    && r.permissive == s.permissive
    && |r.allArgs| == |s.allArgs|
    && (forall i :: 0 <= i < |s.allArgs| ==> SameDefinition(s.allArgs[i], r.allArgs[i]))
    && (forall i :: 0 <= i < |s.allArgs| ==> s.allArgs[i].parsed ==> r.allArgs[i].parsed)
    && s.textArguments <= r.textArguments
    && s.flagCounter <= r.flagCounter
  }

  /** `r` is what a step or a pass from `s` may produce: on success the object has
      only grown and any pending record exists; on abort the partial object has only
      grown. Neither outcome changes the parsed marker. */
  predicate Extends(s: Sarge, r: Result<Progress, Abort>)
  {
    match r
    case Success(p) => Grows(s, p.s) && p.s.parsed == s.parsed && PendingOk(p.s, p.pending)
    case Failure(e) => Grows(s, e.partial) && e.partial.parsed == s.parsed
  }

  /** Growth before an outcome folds into the outcome. */
  lemma ExtendsAfterGrowth(s: Sarge, s': Sarge, r: Result<Progress, Abort>)
    requires Grows(s, s') && s'.parsed == s.parsed && Extends(s', r)
    ensures Extends(s, r)
  {
  }

  /** A successful match of record `i`: mark it seen and count it. */
  function Mark(s: Sarge, i: nat): (r: Sarge)
    requires i < |s.allArgs|
    ensures Grows(s, r) && r.parsed == s.parsed
    ensures r.flagCounter == s.flagCounter + 1 && r.allArgs[i].parsed
    ensures forall j :: 0 <= j < |s.allArgs| && j != i ==> r.allArgs[j] == s.allArgs[j]
    ensures r.allArgs[i].value == s.allArgs[i].value && r.textArguments == s.textArguments
  {
    s.(allArgs := s.allArgs[i := s.allArgs[i].(parsed := true)], flagCounter := s.flagCounter + 1)
  }

  /** Store `v` as the value of record `i`. */
  function Bind(s: Sarge, i: nat, v: string): (r: Sarge)
    requires i < |s.allArgs|
    ensures Grows(s, r) && r.parsed == s.parsed
    ensures r.allArgs[i].value == Some(v) && r.allArgs[i].parsed == s.allArgs[i].parsed
    ensures forall j :: 0 <= j < |s.allArgs| && j != i ==> r.allArgs[j] == s.allArgs[j]
    ensures r.flagCounter == s.flagCounter && r.textArguments == s.textArguments
  {
    s.(allArgs := s.allArgs[i := s.allArgs[i].(value := Some(v))])
  }

  /** What follows a match of record `i`: the next token is its value exactly when
      the flag takes one. */
  function AfterMatch(s: Sarge, i: nat): (pending: Option<nat>)
    requires i < |s.allArgs|
  {
    if s.allArgs[i].hasValue then Some(i) else None
  }

  /** A `--name` token, the dashes already stripped. */
  function LongFlag(s: Sarge, name: string): (r: Result<Progress, Abort>)
    ensures r.Success? ==> Grows(s, r.value.s) && r.value.s.parsed == s.parsed && PendingOk(r.value.s, r.value.pending)
    ensures r.Success? ==> r.value.s.textArguments == s.textArguments
    ensures r.Failure? ==> r.error.partial == s
  {
    match Select(s.allArgs, LongName(name))
    case Missing =>
      if s.permissive then Success(Progress(s, None)) else Failure(Abort(UnknownLongFlag(name), s))
    case Duplicate =>
      Failure(Abort(AmbiguousFlag(LongName(name)), s))
    case Unique(i) =>
      Success(Progress(Mark(s, i), AfterMatch(s, i)))
  }

  /** The object a step or walk leaves behind, whether it goes through or aborts. */
  function Outcome(r: Result<Progress, Abort>): (t: Sarge)
  {
    if r.Success? then r.value.s else r.error.partial
  }

  /** The rest of a `-abc` cluster from position `i` on, one short-name lookup per
      character. Only the last character may leave a value pending; no character
      stores a value, whether the walk goes through or aborts. */
  function Cluster(s: Sarge, flags: string, i: nat): (r: Result<Progress, Abort>)
    requires i <= |flags|
    ensures Extends(s, r)
    ensures r.Success? ==> r.value.s.textArguments == s.textArguments
    ensures forall j :: 0 <= j < |s.allArgs| ==> Outcome(r).allArgs[j].value == s.allArgs[j].value
    decreases |flags| - i
  {
    if i == |flags| then
      Success(Progress(s, None))
    else
      match Select(s.allArgs, ShortName([flags[i]]))
      case Missing =>
        if s.permissive then Cluster(s, flags, i + 1) else Failure(Abort(UnknownShortFlag(flags[i]), s))
      case Duplicate =>
        Failure(Abort(AmbiguousFlag(ShortName([flags[i]])), s))
      case Unique(j) =>
        var s' := Mark(s, j);
        if !s.allArgs[j].hasValue then
          var r := Cluster(s', flags, i + 1);
          ExtendsAfterGrowth(s, s', r);
          r
        else if i != |flags| - 1 then
          Failure(Abort(ValueFlagNotLast(flags[i]), s'))
        else
          Success(Progress(s', Some(j)))
  }

  /** One token of the pass. */
  function Step(s: Sarge, pending: Option<nat>, token: string): (r: Result<Progress, Abort>)
    requires PendingOk(s, pending)
    ensures Extends(s, r)
  {
    if pending.Some? then
      Success(Progress(Bind(s, pending.value, token), None))
    else if |token| == 0 then
      Failure(Abort(EmptyToken, s))
    else if token[0] == '-' then
      if !s.permissive && |s.textArguments| > 0 then
        Failure(Abort(FlagsAfterText(token), s))
      else if |token| < 2 then
        Failure(Abort(LoneDash, s))
      else if token[1] == '-' then
        LongFlag(s, token[2..])
      else
        Cluster(s, token[1..], 0)
    else
      Success(Progress(s.(textArguments := s.textArguments + [token]), None))
  }

  /** The `foreach` over the remaining tokens. */
  function Run(s: Sarge, pending: Option<nat>, tokens: seq<string>): (r: Result<Progress, Abort>)
    requires PendingOk(s, pending)
    ensures Extends(s, r)
    decreases |tokens|
  {
    if |tokens| == 0 then
      Success(Progress(s, pending))
    else
      match Step(s, pending, tokens[0])
      case Failure(e) => Failure(e)
      case Success(p) =>
        var r := Run(p.s, p.pending, tokens[1..]);
        ExtendsAfterGrowth(s, p.s, r);
        r
  }

  /** `ParseArguments`: a full pass from the object's current state. A pass that
      finishes sets `parsed`, even when the last flag still waits for its value; an
      aborted pass leaves `parsed` as it was. */
  function ParseArguments(s: Sarge, tokens: seq<string>): (r: Result<Sarge, Abort>)
    ensures r.Success? ==> Grows(s, r.value) && r.value.parsed
    ensures r.Failure? ==> Grows(s, r.error.partial) && r.error.partial.parsed == s.parsed
  {
    match Run(s, None, tokens)
    case Failure(e) => Failure(e)
    case Success(p) => Success(p.s.(parsed := true))
  }
}

=== FILE: properties.dfy ===
/** Properties of the parsing pass and of the queries that read its results. */
module ParserProperties {
  import opened Wrappers
  import opened Registry
  import opened Parser
  import opened Queries

  /** A token that, when no value is pending, becomes a text argument. */
  predicate IsText(t: string)
  {
    |t| > 0 && t[0] != '-'
  }

  /** Strict mode lets a flag through only while no text argument has been collected. */
  predicate FlagAllowed(s: Sarge)
  {
    s.permissive || |s.textArguments| == 0
  }

  // ---------------------------------------------------------------- single tokens

  /** An empty argument vector leaves every result alone and marks the object parsed. */
  lemma NoTokens(s: Sarge)
    ensures ParseArguments(s, []) == Success(s.(parsed := true))
  {
  }

  /** A pending flag takes the next token verbatim as its value, whatever it looks like
      (empty, `-x`, `--long`): the token is neither classified nor collected as text. */
  lemma PendingTokenIsValue(s: Sarge, i: nat, v: string, rest: seq<string>)
    requires i < |s.allArgs|
    ensures Run(s, Some(i), [v] + rest) == Run(Bind(s, i, v), None, rest)
    ensures Bind(s, i, v).textArguments == s.textArguments && Bind(s, i, v).flagCounter == s.flagCounter
  {
    assert ([v] + rest)[0] == v && ([v] + rest)[1..] == rest;
  }

  /** With no value pending, an empty token aborts before anything is changed. */
  lemma EmptyTokenAborts(s: Sarge, rest: seq<string>)
    ensures Run(s, None, [""] + rest) == Failure(Abort(EmptyToken, s))
  {
    assert ([""] + rest)[0] == "";
  }

  /** Strict mode: a `-`-prefixed token after a text argument aborts, before any lookup. */
  lemma StrictFlagAfterTextAborts(s: Sarge, t: string)
    requires !s.permissive && |s.textArguments| > 0
    requires |t| > 0 && t[0] == '-'
    ensures Step(s, None, t) == Failure(Abort(FlagsAfterText(t), s))
  {
  }

  /** A lone `-` that passes the ordering check aborts; it is not a text argument. */
  lemma LoneDashAborts(s: Sarge)
    requires FlagAllowed(s)
    ensures Step(s, None, "-") == Failure(Abort(LoneDash, s))
  {
  }

  // ---------------------------------------------------------------- long flags

  /** Strict mode: an unregistered `--name` aborts with nothing changed. */
  lemma UnknownLongFlagStrict(s: Sarge, name: string)
    requires !s.permissive && |s.textArguments| == 0
    requires Select(s.allArgs, LongName(name)) == Missing
    ensures Step(s, None, "--" + name) == Failure(Abort(UnknownLongFlag(name), s))
  {
    assert ("--" + name)[2..] == name;
  }

  /** Permissive mode: an unregistered `--name` is skipped; the pass continues from the
      same state with no value pending. */
  lemma UnknownLongFlagSkipped(s: Sarge, name: string, rest: seq<string>)
    requires s.permissive
    requires Select(s.allArgs, LongName(name)) == Missing
    ensures Run(s, None, ["--" + name] + rest) == Run(s, None, rest)
  {
    assert ("--" + name)[2..] == name;
    assert (["--" + name] + rest)[1..] == rest;
  }

  /** A registered value-taking `--name` is matched, counted once, and binds the next
      token as its value; the pass then continues with nothing pending. */
  lemma LongValueFlagTakesNextToken(s: Sarge, name: string, i: nat, v: string, rest: seq<string>)
    requires FlagAllowed(s)
    requires Select(s.allArgs, LongName(name)) == Unique(i) && s.allArgs[i].hasValue
    ensures Run(s, None, ["--" + name, v] + rest) == Run(Bind(Mark(s, i), i, v), None, rest)
  {
    assert ("--" + name)[2..] == name;
    var tokens := ["--" + name, v] + rest;
    assert tokens[0] == "--" + name && tokens[1..] == [v] + rest;
    PendingTokenIsValue(Mark(s, i), i, v, rest);
  }

  /** A registered `--name` that takes no value is matched and counted once and leaves
      nothing pending, so the next token is classified afresh. */
  lemma LongPlainFlag(s: Sarge, name: string, i: nat, rest: seq<string>)
    requires FlagAllowed(s)
    requires Select(s.allArgs, LongName(name)) == Unique(i) && !s.allArgs[i].hasValue
    ensures Run(s, None, ["--" + name] + rest) == Run(Mark(s, i), None, rest)
  {
    assert ("--" + name)[2..] == name;
    var tokens := ["--" + name] + rest;
    assert tokens[0] == "--" + name && tokens[1..] == rest;
  }

  /** In either mode, a long name that several records carry aborts with nothing
      changed. */
  lemma DuplicateLongFlagAborts(s: Sarge, name: string)
    requires FlagAllowed(s)
    requires Select(s.allArgs, LongName(name)) == Duplicate
    ensures Step(s, None, "--" + name) == Failure(Abort(AmbiguousFlag(LongName(name)), s))
  {
    assert ("--" + name)[2..] == name;
  }

  /** A flag given twice is counted twice, and the second value replaces the first. */
  lemma {:induction false} RepeatedFlagLastValueWins(s: Sarge, name: string, i: nat, a: string, b: string)
    requires FlagAllowed(s)
    requires Select(s.allArgs, LongName(name)) == Unique(i) && s.allArgs[i].hasValue
    ensures var r := ParseArguments(s, ["--" + name, a, "--" + name, b]);
            && r.Success?
            && r.value.allArgs[i].value == Some(b) && r.value.allArgs[i].parsed
            && ParsedFlags(r.value) == s.flagCounter + 2
            && r.value.textArguments == s.textArguments
  {
    var tokens := ["--" + name, a, "--" + name, b];
    LongValueFlagTakesNextToken(s, name, i, a, ["--" + name, b]);
    assert tokens == ["--" + name, a] + ["--" + name, b];
    var s1 := Bind(Mark(s, i), i, a);
    SelectNamesOnly(s.allArgs, s1.allArgs, LongName(name));
    LongValueFlagTakesNextToken(s1, name, i, b, []);
    assert ["--" + name, b] == ["--" + name, b] + [];
    var s2 := Bind(Mark(s1, i), i, b);
    assert Run(s2, None, []) == Success(Progress(s2, None));
    assert Run(s, None, tokens) == Success(Progress(s2, None));
    assert ParseArguments(s, tokens) == Success(s2.(parsed := true));
  }

  /** A value-taking flag given as the very last token is matched and counted but
      binds nothing: it keeps whatever value an earlier pass left in it. */
  lemma {:induction false} ValueFlagAsLastToken(s: Sarge, name: string, i: nat)
    requires FlagAllowed(s)
    requires Select(s.allArgs, LongName(name)) == Unique(i) && s.allArgs[i].hasValue
    ensures var r := ParseArguments(s, ["--" + name]);
            && r.Success? && r.value.parsed
            && r.value.allArgs[i].parsed && r.value.allArgs[i].value == s.allArgs[i].value
            && ParsedFlags(r.value) == s.flagCounter + 1
  {
    assert ("--" + name)[2..] == name;
    var tokens := ["--" + name];
    assert tokens[0] == "--" + name && tokens[1..] == [];
    assert Step(s, None, tokens[0]) == Success(Progress(Mark(s, i), Some(i)));
    assert Run(Mark(s, i), Some(i), tokens[1..]) == Success(Progress(Mark(s, i), Some(i)));
    assert Run(s, None, tokens) == Success(Progress(Mark(s, i), Some(i)));
  }

  // ---------------------------------------------------------------- clusters

  /** Whether a cluster character names exactly one registered short flag. */
  predicate KnownShort(args: seq<Argument>, c: char)
  {
    Select(args, ShortName([c])).Unique?
  }

  /** How many characters of a cluster name a registered short flag. */
  function KnownCount(args: seq<Argument>, cs: string): (n: nat)
    ensures n <= |cs|
  {
    if |cs| == 0 then 0
    else (if KnownShort(args, cs[0]) then 1 else 0) + KnownCount(args, cs[1..])
  }

  /** `KnownCount` reads the names only. */
  lemma {:induction false} KnownCountNamesOnly(a: seq<Argument>, b: seq<Argument>, cs: string)
    requires |a| == |b|
    requires forall i :: 0 <= i < |a| ==> SameDefinition(a[i], b[i])
    ensures KnownCount(a, cs) == KnownCount(b, cs)
    decreases |cs|
  {
    if |cs| > 0 {
      SelectNamesOnly(a, b, ShortName([cs[0]]));
      KnownCountNamesOnly(a, b, cs[1..]);
    }
  }

  /** A cluster that goes through counts exactly one match per registered character;
      in strict mode every character is registered, so the count is the cluster's
      length. */
  lemma {:induction false} ClusterCountsEachMatch(s: Sarge, flags: string, i: nat)
    requires i <= |flags|
    requires Cluster(s, flags, i).Success?
    ensures Cluster(s, flags, i).value.s.flagCounter == s.flagCounter + KnownCount(s.allArgs, flags[i..])
    ensures !s.permissive ==> KnownCount(s.allArgs, flags[i..]) == |flags| - i
    decreases |flags| - i
  {
    if i < |flags| {
      assert flags[i..][0] == flags[i] && flags[i..][1..] == flags[i + 1..];
      match Select(s.allArgs, ShortName([flags[i]]))
      case Missing =>
        ClusterCountsEachMatch(s, flags, i + 1);
      case Unique(j) =>
        var s' := Mark(s, j);
        SelectNamesOnly(s.allArgs, s'.allArgs, ShortName([flags[i]]));
        KnownCountNamesOnly(s.allArgs, s'.allArgs, flags[i + 1..]);
        if !s.allArgs[j].hasValue {
          ClusterCountsEachMatch(s', flags, i + 1);
        } else {
          assert flags[i + 1..] == [];
        }
    }
  }

  /** The character at position `k` of a cluster names exactly one registered flag,
      and that flag takes a value. */
  predicate ValueFlagAt(args: seq<Argument>, flags: string, k: nat)
    requires k < |flags|
  {
    var l := Select(args, ShortName([flags[k]]));
    l.Unique? && args[l.index].hasValue
  }

  lemma ValueFlagAtNamesOnly(a: seq<Argument>, b: seq<Argument>, flags: string, k: nat)
    requires |a| == |b| && k < |flags|
    requires forall i :: 0 <= i < |a| ==> SameDefinition(a[i], b[i])
    ensures ValueFlagAt(a, flags, k) == ValueFlagAt(b, flags, k)
  {
    SelectNamesOnly(a, b, ShortName([flags[k]]));
  }

  /** A cluster that goes through has no value-taking flag before its last character. */
  lemma {:induction false} ClusterValueOnlyAtEnd(s: Sarge, flags: string, i: nat)
    requires i <= |flags|
    requires Cluster(s, flags, i).Success?
    ensures forall k :: i <= k < |flags| - 1 ==> !ValueFlagAt(s.allArgs, flags, k)
  {
    forall k | i <= k < |flags| - 1
      ensures !ValueFlagAt(s.allArgs, flags, k)
    {
      ClusterNoValueAt(s, flags, i, k);
    }
  }

  /** The pointwise form: position `k`, before the last, of a cluster walk from `i`
      that goes through does not name a value-taking flag. */
  lemma {:induction false} ClusterNoValueAt(s: Sarge, flags: string, i: nat, k: nat)
    requires i <= k < |flags| - 1
    requires Cluster(s, flags, i).Success?
    ensures !ValueFlagAt(s.allArgs, flags, k)
    decreases k - i
  {
    match Select(s.allArgs, ShortName([flags[i]]))
    case Missing =>
      if i < k {
        ClusterNoValueAt(s, flags, i + 1, k);
      }
    case Unique(j) =>
      if i < k {
        var s' := Mark(s, j);
        ClusterNoValueAt(s', flags, i + 1, k);
        ValueFlagAtNamesOnly(s.allArgs, s'.allArgs, flags, k);
      }
  }

  /** A value is left pending by a cluster only for the flag its last character names. */
  lemma {:induction false} ClusterPendingIsLast(s: Sarge, flags: string, i: nat)
    requires i <= |flags|
    requires Cluster(s, flags, i).Success? && Cluster(s, flags, i).value.pending.Some?
    ensures var j := Cluster(s, flags, i).value.pending.value;
            i < |flags| && Select(s.allArgs, ShortName([flags[|flags| - 1]])) == Unique(j) && s.allArgs[j].hasValue
    decreases |flags| - i
  {
    match Select(s.allArgs, ShortName([flags[i]]))
    case Missing =>
      ClusterPendingIsLast(s, flags, i + 1);
    case Unique(j) =>
      if !s.allArgs[j].hasValue {
        var s' := Mark(s, j);
        ClusterPendingIsLast(s', flags, i + 1);
        SelectNamesOnly(s.allArgs, s'.allArgs, ShortName([flags[|flags| - 1]]));
      }
  }

  /** Conversely, when the last character of a cluster that goes through names a
      value-taking flag, that flag is left pending. */
  lemma {:induction false} ClusterLastValuePending(s: Sarge, flags: string, i: nat)
    requires i < |flags|
    requires Cluster(s, flags, i).Success? && ValueFlagAt(s.allArgs, flags, |flags| - 1)
    ensures Cluster(s, flags, i).value.pending == Some(Select(s.allArgs, ShortName([flags[|flags| - 1]])).index)
    decreases |flags| - i
  {
    match Select(s.allArgs, ShortName([flags[i]]))
    case Missing =>
      if i + 1 < |flags| {
        ClusterLastValuePending(s, flags, i + 1);
      }
    case Unique(j) =>
      if !s.allArgs[j].hasValue && i + 1 < |flags| {
        var s' := Mark(s, j);
        ValueFlagAtNamesOnly(s.allArgs, s'.allArgs, flags, |flags| - 1);
        SelectNamesOnly(s.allArgs, s'.allArgs, ShortName([flags[|flags| - 1]]));
        ClusterLastValuePending(s', flags, i + 1);
      }
  }

  /** A cluster character naming exactly one registered flag that takes no value marks
      and counts that flag, and the walk goes on with the next character. */
  lemma ClusterPlainShortFlag(s: Sarge, flags: string, i: nat, j: nat)
    requires i < |flags|
    requires Select(s.allArgs, ShortName([flags[i]])) == Unique(j) && !s.allArgs[j].hasValue
    ensures Cluster(s, flags, i) == Cluster(Mark(s, j), flags, i + 1)
  {
  }

  /** The record that a registered character at position `k` names is seen after a
      cluster walk from `i` that goes through. */
  lemma {:induction false} ClusterMarksAt(s: Sarge, flags: string, i: nat, k: nat)
    requires i <= k < |flags|
    requires Cluster(s, flags, i).Success? && KnownShort(s.allArgs, flags[k])
    ensures Cluster(s, flags, i).value.s.allArgs[Select(s.allArgs, ShortName([flags[k]])).index].parsed
    decreases k - i
  {
    match Select(s.allArgs, ShortName([flags[i]]))
    case Missing =>
      if i < k {
        ClusterMarksAt(s, flags, i + 1, k);
      }
    case Unique(j) =>
      if !s.allArgs[j].hasValue {
        var s' := Mark(s, j);
        if i < k {
          SelectNamesOnly(s.allArgs, s'.allArgs, ShortName([flags[k]]));
          ClusterMarksAt(s', flags, i + 1, k);
        }
      }
  }

  /** A record that a cluster walk from `i` newly marks seen is the one some character
      from position `i` on names. */
  lemma {:induction false} ClusterMarksOnlyNamed(s: Sarge, flags: string, i: nat, j: nat)
    requires i <= |flags| && j < |s.allArgs|
    requires Cluster(s, flags, i).Success?
    requires Cluster(s, flags, i).value.s.allArgs[j].parsed && !s.allArgs[j].parsed
    ensures exists k :: i <= k < |flags| && Select(s.allArgs, ShortName([flags[k]])) == Unique(j)
    decreases |flags| - i
  {
    if i < |flags| {
      match Select(s.allArgs, ShortName([flags[i]]))
      case Missing =>
        ClusterMarksOnlyNamed(s, flags, i + 1, j);
      case Unique(j') =>
        if j' != j && !s.allArgs[j'].hasValue {
          var s' := Mark(s, j');
          ClusterMarksOnlyNamed(s', flags, i + 1, j);
          var k :| i + 1 <= k < |flags| && Select(s'.allArgs, ShortName([flags[k]])) == Unique(j);
          SelectNamesOnly(s.allArgs, s'.allArgs, ShortName([flags[k]]));
        }
    }
  }

  /** Which records a cluster that goes through marks seen: every record a character
      names, and no other record that was unseen before. */
  lemma ClusterMarksNamed(s: Sarge, flags: string, i: nat)
    requires i <= |flags| && Cluster(s, flags, i).Success?
    ensures var r := Cluster(s, flags, i).value.s;
            forall k :: i <= k < |flags| && KnownShort(s.allArgs, flags[k]) ==>
              r.allArgs[Select(s.allArgs, ShortName([flags[k]])).index].parsed
    ensures var r := Cluster(s, flags, i).value.s;
            forall j :: 0 <= j < |s.allArgs| && r.allArgs[j].parsed && !s.allArgs[j].parsed ==>
              exists k :: i <= k < |flags| && Select(s.allArgs, ShortName([flags[k]])) == Unique(j)
  {
    forall k | i <= k < |flags| && KnownShort(s.allArgs, flags[k])
      ensures Cluster(s, flags, i).value.s.allArgs[Select(s.allArgs, ShortName([flags[k]])).index].parsed
    {
      ClusterMarksAt(s, flags, i, k);
    }
    var r := Cluster(s, flags, i).value.s;
    forall j | 0 <= j < |s.allArgs| && r.allArgs[j].parsed && !s.allArgs[j].parsed
      ensures exists k :: i <= k < |flags| && Select(s.allArgs, ShortName([flags[k]])) == Unique(j)
    {
      ClusterMarksOnlyNamed(s, flags, i, j);
    }
  }

  /** Strict mode: a cluster character with no registered short flag aborts. */
  lemma UnknownShortFlagStrict(s: Sarge, flags: string, i: nat)
    requires !s.permissive && i < |flags|
    requires Select(s.allArgs, ShortName([flags[i]])) == Missing
    ensures Cluster(s, flags, i) == Failure(Abort(UnknownShortFlag(flags[i]), s))
  {
  }

  /** Permissive mode: such a character is skipped and the cluster walk goes on. */
  lemma UnknownShortFlagSkipped(s: Sarge, flags: string, i: nat)
    requires s.permissive && i < |flags|
    requires Select(s.allArgs, ShortName([flags[i]])) == Missing
    ensures Cluster(s, flags, i) == Cluster(s, flags, i + 1)
  {
  }

  /** In either mode, a cluster character that several records carry as their short
      name aborts before anything is changed for it. */
  lemma DuplicateShortFlagAborts(s: Sarge, flags: string, i: nat)
    requires i < |flags|
    requires Select(s.allArgs, ShortName([flags[i]])) == Duplicate
    ensures Cluster(s, flags, i) == Failure(Abort(AmbiguousFlag(ShortName([flags[i]])), s))
  {
  }

  /** In either mode, a value-taking short flag before the end of its cluster aborts,
      after it has been marked and counted. */
  lemma ValueFlagInsideClusterAborts(s: Sarge, flags: string, i: nat, j: nat)
    requires i < |flags| - 1
    requires Select(s.allArgs, ShortName([flags[i]])) == Unique(j) && s.allArgs[j].hasValue
    ensures Cluster(s, flags, i) == Failure(Abort(ValueFlagNotLast(flags[i]), Mark(s, j)))
  {
  }

  // ---------------------------------------------------------------- the counter

  /** How many matches a token counts when no value is pending, read from the
      registry's names alone: one for a registered long name, one per registered
      character of a cluster, none otherwise. */
  function TokenMatches(args: seq<Argument>, t: string): (n: nat)
  {
    if |t| >= 2 && t[0] == '-' then
      if t[1] == '-' then (if Select(args, LongName(t[2..])).Unique? then 1 else 0)
      else KnownCount(args, t[1..])
    else
      0
  }

  /** Whether a token, read with no value pending, leaves a value pending: a registered
      value-taking long flag, or a cluster whose last character names one. */
  predicate LeavesPending(args: seq<Argument>, t: string)
  {
    if |t| < 2 || t[0] != '-' then false
    else if t[1] == '-' then LongValueFlag(args, t[2..])
    else ValueFlagAt(args, t[1..], |t| - 2)
  }

  /** The long name names exactly one registered flag, and that flag takes a value. */
  predicate LongValueFlag(args: seq<Argument>, name: string)
  {
    var l := Select(args, LongName(name));
    l.Unique? && args[l.index].hasValue
  }

  /** The matches a pass over `tokens` counts, read token by token from the names: a
      token taken as a value counts nothing. */
  function PassMatches(args: seq<Argument>, pending: bool, tokens: seq<string>): (n: nat)
    decreases |tokens|
  {
    if |tokens| == 0 then 0
    else if pending then PassMatches(args, false, tokens[1..])
    else TokenMatches(args, tokens[0]) + PassMatches(args, LeavesPending(args, tokens[0]), tokens[1..])
  }

  lemma {:induction false} PassMatchesNamesOnly(a: seq<Argument>, b: seq<Argument>, pending: bool, tokens: seq<string>)
    requires |a| == |b|
    requires forall i :: 0 <= i < |a| ==> SameDefinition(a[i], b[i])
    ensures PassMatches(a, pending, tokens) == PassMatches(b, pending, tokens)
    decreases |tokens|
  {
    if |tokens| > 0 {
      TokenNamesOnly(a, b, tokens[0]);
      PassMatchesNamesOnly(a, b, false, tokens[1..]);
      PassMatchesNamesOnly(a, b, LeavesPending(a, tokens[0]), tokens[1..]);
    }
  }

  lemma TokenNamesOnly(a: seq<Argument>, b: seq<Argument>, t: string)
    requires |a| == |b|
    requires forall i :: 0 <= i < |a| ==> SameDefinition(a[i], b[i])
    ensures TokenMatches(a, t) == TokenMatches(b, t) && LeavesPending(a, t) == LeavesPending(b, t)
  {
    TokenMatchesNamesOnly(a, b, t);
    LeavesPendingNamesOnly(a, b, t);
  }

  lemma TokenMatchesNamesOnly(a: seq<Argument>, b: seq<Argument>, t: string)
    requires |a| == |b|
    requires forall i :: 0 <= i < |a| ==> SameDefinition(a[i], b[i])
    ensures TokenMatches(a, t) == TokenMatches(b, t)
  {
    if |t| >= 2 && t[0] == '-' {
      if t[1] == '-' {
        SelectNamesOnly(a, b, LongName(t[2..]));
      } else {
        KnownCountNamesOnly(a, b, t[1..]);
      }
    }
  }

  lemma LeavesPendingNamesOnly(a: seq<Argument>, b: seq<Argument>, t: string)
    requires |a| == |b|
    requires forall i :: 0 <= i < |a| ==> SameDefinition(a[i], b[i])
    ensures LeavesPending(a, t) == LeavesPending(b, t)
  {
    LongTokenNamesOnly(a, b, t);
    LastShortNamesOnly(a, b, t);
    LeavesPendingBy(a, b, t);
  }

  /** What `LeavesPending` reads of the names: the long lookup or the last character's. */
  lemma LeavesPendingBy(a: seq<Argument>, b: seq<Argument>, t: string)
    requires |t| >= 2 ==> LongValueFlag(a, t[2..]) == LongValueFlag(b, t[2..])
    requires |t| >= 2 ==> ValueFlagAt(a, t[1..], |t| - 2) == ValueFlagAt(b, t[1..], |t| - 2)
    ensures LeavesPending(a, t) == LeavesPending(b, t)
  {
  }

  lemma LongTokenNamesOnly(a: seq<Argument>, b: seq<Argument>, t: string)
    requires |a| == |b|
    requires forall i :: 0 <= i < |a| ==> SameDefinition(a[i], b[i])
    ensures |t| >= 2 ==> LongValueFlag(a, t[2..]) == LongValueFlag(b, t[2..])
  {
    if |t| >= 2 {
      SelectNamesOnly(a, b, LongName(t[2..]));
    }
  }

  lemma LastShortNamesOnly(a: seq<Argument>, b: seq<Argument>, t: string)
    requires |a| == |b|
    requires forall i :: 0 <= i < |a| ==> SameDefinition(a[i], b[i])
    ensures |t| >= 2 ==> ValueFlagAt(a, t[1..], |t| - 2) == ValueFlagAt(b, t[1..], |t| - 2)
  {
    if |t| >= 2 {
      ValueFlagAtNamesOnly(a, b, t[1..], |t| - 2);
    }
  }

  /** A long flag that goes through counts one match exactly when its name is
      registered, and leaves a value pending exactly for a value-taking flag. */
  lemma LongFlagCountsMatches(s: Sarge, name: string)
    requires LongFlag(s, name).Success?
    ensures LongFlag(s, name).value.s.flagCounter
         == s.flagCounter + (if Select(s.allArgs, LongName(name)).Unique? then 1 else 0)
    ensures LongFlag(s, name).value.pending.Some? <==> LongValueFlag(s.allArgs, name)
  {
  }

  /** A cluster that goes through counts its registered characters and leaves a value
      pending exactly when its last character names a value-taking flag. */
  lemma ClusterCountsMatches(s: Sarge, flags: string)
    requires |flags| > 0 && Cluster(s, flags, 0).Success?
    ensures Cluster(s, flags, 0).value.s.flagCounter == s.flagCounter + KnownCount(s.allArgs, flags)
    ensures Cluster(s, flags, 0).value.pending.Some? <==> ValueFlagAt(s.allArgs, flags, |flags| - 1)
  {
    assert flags[0..] == flags;
    ClusterCountsEachMatch(s, flags, 0);
    if Cluster(s, flags, 0).value.pending.Some? {
      ClusterPendingIsLast(s, flags, 0);
    }
    if ValueFlagAt(s.allArgs, flags, |flags| - 1) {
      ClusterLastValuePending(s, flags, 0);
    }
  }

  /** One token with nothing pending raises the counter by its matches and leaves a
      value pending exactly as the names predict. */
  lemma StepCountsMatches(s: Sarge, t: string)
    requires Step(s, None, t).Success?
    ensures Step(s, None, t).value.s.flagCounter == s.flagCounter + TokenMatches(s.allArgs, t)
    ensures Step(s, None, t).value.pending.Some? <==> LeavesPending(s.allArgs, t)
  {
    if |t| >= 2 && t[0] == '-' {
      if t[1] == '-' {
        assert Step(s, None, t) == LongFlag(s, t[2..]);
        LongFlagCountsMatches(s, t[2..]);
      } else {
        assert Step(s, None, t) == Cluster(s, t[1..], 0);
        ClusterCountsMatches(s, t[1..]);
      }
    }
  }

  /** A pass that goes through raises the counter by exactly the matches its tokens
      count; a repeated flag counts each time. */
  lemma {:induction false} RunCountsMatches(s: Sarge, pending: Option<nat>, tokens: seq<string>)
    requires PendingOk(s, pending)
    requires Run(s, pending, tokens).Success?
    ensures Run(s, pending, tokens).value.s.flagCounter == s.flagCounter + PassMatches(s.allArgs, pending.Some?, tokens)
    decreases |tokens|
  {
    if |tokens| > 0 {
      var p := Step(s, pending, tokens[0]).value;
      if pending.None? {
        StepCountsMatches(s, tokens[0]);
      }
      RunCountsMatches(p.s, p.pending, tokens[1..]);
      PassMatchesNamesOnly(s.allArgs, p.s.allArgs, p.pending.Some?, tokens[1..]);
    }
  }

  /** `ParsedFlags` after a finished pass: what it was before, plus the matches the
      pass's tokens count. */
  lemma ParsedFlagsCountsMatches(s: Sarge, tokens: seq<string>)
    requires ParseArguments(s, tokens).Success?
    ensures ParsedFlags(ParseArguments(s, tokens).value) == ParsedFlags(s) + PassMatches(s.allArgs, false, tokens)
  {
    RunCountsMatches(s, None, tokens);
  }

  /** A freshly constructed object answers every query with "nothing". */
  lemma NewSargeAnswersNothing(permissive: bool, name: string, index: nat)
    ensures Exists(NewSarge(permissive), name) == Success(false)
    ensures GetFlag(NewSarge(permissive), name) == Success(FlagAnswer(false, None))
    ensures GetTextArgument(NewSarge(permissive), index) == Success(None)
    ensures ParsedFlags(NewSarge(permissive)) == 0
    ensures !NewSarge().permissive
  {
  }

  // ---------------------------------------------------------------- whole passes

  /** Tokens that are all text, with nothing pending, are appended in order and
      change nothing else. */
  lemma {:induction false} TextTokensAppended(s: Sarge, tokens: seq<string>)
    requires forall k :: 0 <= k < |tokens| ==> IsText(tokens[k])
    ensures Run(s, None, tokens) == Success(Progress(s.(textArguments := s.textArguments + tokens), None))
    decreases |tokens|
  {
    if |tokens| == 0 {
      assert s.textArguments + tokens == s.textArguments;
    } else {
      var s' := s.(textArguments := s.textArguments + [tokens[0]]);
      TextTokensAppended(s', tokens[1..]);
      assert s.textArguments + [tokens[0]] + tokens[1..] == s.textArguments + tokens;
    }
  }

  /** Parsing text tokens and reading them back: each is found at its position after
      the text arguments collected before. */
  lemma TextRoundTrip(s: Sarge, tokens: seq<string>)
    requires forall k :: 0 <= k < |tokens| ==> IsText(tokens[k])
    ensures var r := ParseArguments(s, tokens);
            && r.Success?
            && (forall k :: 0 <= k < |tokens| ==>
                  GetTextArgument(r.value, |s.textArguments| + k) == Success(Some(tokens[k])))
            && GetTextArgument(r.value, |s.textArguments| + |tokens|) == Success(None)
  {
    TextTokensAppended(s, tokens);
  }

  /** Strict mode: once a text argument is collected, a pass that goes through has
      taken every remaining token as text and matched no flag. */
  lemma {:induction false} StrictTextTail(s: Sarge, tokens: seq<string>)
    requires !s.permissive && |s.textArguments| > 0
    requires Run(s, None, tokens).Success?
    ensures Run(s, None, tokens) == Success(Progress(s.(textArguments := s.textArguments + tokens), None))
    decreases |tokens|
  {
    if |tokens| == 0 {
      assert s.textArguments + tokens == s.textArguments;
    } else {
      var s' := s.(textArguments := s.textArguments + [tokens[0]]);
      StrictTextTail(s', tokens[1..]);
      assert s.textArguments + [tokens[0]] + tokens[1..] == s.textArguments + tokens;
    }
  }

  /** Strict mode: the text arguments a successful pass collects are a suffix of its
      tokens (flags and values first, then text only). */
  lemma {:induction false} StrictTextIsSuffix(s: Sarge, pending: Option<nat>, tokens: seq<string>)
    requires !s.permissive && PendingOk(s, pending)
    requires Run(s, pending, tokens).Success?
    ensures exists k :: 0 <= k <= |tokens|
              && Run(s, pending, tokens).value.s.textArguments == s.textArguments + tokens[k..]
    decreases |tokens|
  {
    if |tokens| == 0 {
      assert Run(s, pending, tokens).value.s.textArguments == s.textArguments + tokens[0..];
    } else {
      var p := Step(s, pending, tokens[0]).value;
      if pending.None? && IsText(tokens[0]) {
        if |s.textArguments| > 0 {
          StrictTextTail(s, tokens);
        } else {
          StrictTextTail(p.s, tokens[1..]);
          assert p.pending == None;
        }
        assert s.textArguments + tokens[0..] == s.textArguments + tokens;
      } else {
        assert p.s.textArguments == s.textArguments;
        StrictTextIsSuffix(p.s, p.pending, tokens[1..]);
        var k :| 0 <= k <= |tokens[1..]|
                 && Run(p.s, p.pending, tokens[1..]).value.s.textArguments == p.s.textArguments + tokens[1..][k..];
        assert tokens[1..][k..] == tokens[k + 1..];
      }
    }
  }

  /** The errors a permissive pass can still raise: the ordering rule and unknown
      names never fire, while malformed tokens, duplicate names and a value flag
      inside a cluster still abort. */
  predicate PermissiveError(e: ErrorKind)
  {
    e.EmptyToken? || e.LoneDash? || e.AmbiguousFlag? || e.ValueFlagNotLast?
  }

  lemma {:induction false} PermissiveClusterErrors(s: Sarge, flags: string, i: nat)
    requires s.permissive && i <= |flags|
    ensures Cluster(s, flags, i).Failure? ==>
              Cluster(s, flags, i).error.kind.AmbiguousFlag? || Cluster(s, flags, i).error.kind.ValueFlagNotLast?
    decreases |flags| - i
  {
    if i < |flags| {
      match Select(s.allArgs, ShortName([flags[i]]))
      case Missing =>
        PermissiveClusterErrors(s, flags, i + 1);
      case Duplicate =>
      case Unique(j) =>
        PermissiveClusterErrors(Mark(s, j), flags, i + 1);
    }
  }

  lemma {:induction false} PermissiveErrors(s: Sarge, pending: Option<nat>, tokens: seq<string>)
    requires s.permissive && PendingOk(s, pending)
    ensures Run(s, pending, tokens).Failure? ==> PermissiveError(Run(s, pending, tokens).error.kind)
    decreases |tokens|
  {
    if |tokens| > 0 {
      var t := tokens[0];
      if pending.None? && |t| >= 2 && t[0] == '-' && t[1] != '-' {
        PermissiveClusterErrors(s, t[1..], 0);
      }
      match Step(s, pending, t)
      case Failure(_) =>
      case Success(p) =>
        PermissiveErrors(p.s, p.pending, tokens[1..]);
    }
  }

  // ---------------------------------------------------------------- queries

  /** `Exists` answers exactly what `GetFlag` returns, and fails exactly when it does. */
  lemma ExistsAgreesWithGetFlag(s: Sarge, name: string)
    ensures Exists(s, name).Failure? <==> GetFlag(s, name).Failure?
    ensures Exists(s, name).Success? ==> Exists(s, name).value == GetFlag(s, name).value.found
  {
  }

  /** Before any pass has finished, every flag query answers "not seen". */
  lemma NothingSeenBeforeParse(s: Sarge, name: string, tokens: seq<string>)
    requires !s.parsed
    ensures Exists(s, name) == Success(false) && GetFlag(s, name) == Success(FlagAnswer(false, None))
    ensures var r := ParseArguments(s, tokens);
            r.Failure? ==> Exists(r.error.partial, name) == Success(false)
                           && GetFlag(r.error.partial, name) == Success(FlagAnswer(false, None))
  {
  }

  /** Parse-then-query: after `--name value` the flag is reported seen with exactly that
      value, under its long name, and the counter has grown by one. */
  lemma {:induction false} LongFlagRoundTrip(s: Sarge, name: string, i: nat, v: string)
    requires FlagAllowed(s)
    requires Select(s.allArgs, LongName(name)) == Unique(i) && s.allArgs[i].hasValue
    requires Select(s.allArgs, AnyName(name)) == Unique(i)
    ensures var r := ParseArguments(s, ["--" + name, v]);
            && r.Success?
            && GetFlag(r.value, name) == Success(FlagAnswer(true, Some(v)))
            && Exists(r.value, name) == Success(true)
            && ParsedFlags(r.value) == ParsedFlags(s) + 1
  {
    LongValueFlagTakesNextToken(s, name, i, v, []);
    assert ["--" + name, v] == ["--" + name, v] + [];
    var s1 := Bind(Mark(s, i), i, v);
    assert Run(s1, None, []) == Success(Progress(s1, None));
    var r := s1.(parsed := true);
    SelectNamesOnly(s.allArgs, r.allArgs, AnyName(name));
  }
}

=== FILE: queries.dfy ===
/** The read-only queries over a parser object: `GetFlag`, `Exists`, `GetTextArgument`
    and `ParsedFlags`. */
module Queries {
  import opened Wrappers
  import opened Registry

  /** Failures the queries can raise: several records answer to the asked name
      (`SingleOrDefault` throws), or a negative text-argument index (the list indexer
      throws). */
  datatype QueryError = Ambiguous(key: Key) | IndexOutOfRange(index: int)

  /** The two results of `GetFlag`: its return value and its `out` value. */
  datatype FlagAnswer = FlagAnswer(found: bool, value: Option<string>)

  /** Exactly one record answers to `key`, and that record was seen by a parse. */
  predicate UniquelySeen(args: seq<Argument>, key: Key)
  {
    exists i :: 0 <= i < |args| && Named(args[i], key) && args[i].parsed
                && forall j :: 0 <= j < |args| && j != i ==> !Named(args[j], key)
  }

  /** At least two records answer to `key`. */
  predicate Ambiguity(args: seq<Argument>, key: Key)
  {
    exists i, j :: 0 <= i < j < |args| && Named(args[i], key) && Named(args[j], key)
  }

  /** `GetFlag`: whether the flag, named by its long or its short name, was seen,
      and its value when it takes one. */
  function GetFlag(s: Sarge, name: string): (r: Result<FlagAnswer, QueryError>)
    ensures !s.parsed ==> r == Success(FlagAnswer(false, None))
    ensures r.Failure? <==> s.parsed && Ambiguity(s.allArgs, AnyName(name))
    ensures r.Success? && r.value.found <==> s.parsed && UniquelySeen(s.allArgs, AnyName(name))
    ensures r.Success? && r.value.found ==>
              forall i :: 0 <= i < |s.allArgs| && Named(s.allArgs[i], AnyName(name)) ==>
                r.value.value == (if s.allArgs[i].hasValue then s.allArgs[i].value else None)
    ensures r.Success? && !r.value.found ==> r.value.value == None
  {
    if !s.parsed then
      Success(FlagAnswer(false, None))
    else
      match Select(s.allArgs, AnyName(name))
      case Missing => Success(FlagAnswer(false, None))
      case Duplicate => Failure(Ambiguous(AnyName(name)))
      case Unique(i) =>
        var a := s.allArgs[i];
        if !a.parsed then Success(FlagAnswer(false, None))
        else Success(FlagAnswer(true, if a.hasValue then a.value else None))
  }

  /** `Exists`: whether the flag, named by its long or its short name, was seen. */
  function Exists(s: Sarge, name: string): (r: Result<bool, QueryError>)
    ensures !s.parsed ==> r == Success(false)
    ensures r.Failure? <==> s.parsed && Ambiguity(s.allArgs, AnyName(name))
    ensures r == Success(true) <==> s.parsed && UniquelySeen(s.allArgs, AnyName(name))
  {
    if !s.parsed then
      Success(false)
    else
      match Select(s.allArgs, AnyName(name))
      case Missing => Success(false)
      case Duplicate => Failure(Ambiguous(AnyName(name)))
      case Unique(i) => Success(s.allArgs[i].parsed)
  }

  /** `GetTextArgument`: the text argument at a zero-based index, absent past the end.
      It does not look at `parsed`. */
  function GetTextArgument(s: Sarge, index: int): (r: Result<Option<string>, QueryError>)
    ensures 0 <= index < |s.textArguments| ==> r == Success(Some(s.textArguments[index]))
    ensures index >= |s.textArguments| ==> r == Success(None)
    ensures index < 0 <==> r.Failure?
  {
    if index < |s.textArguments| then
      if index < 0 then Failure(IndexOutOfRange(index)) else Success(Some(s.textArguments[index]))
    else
      Success(None)
  }

  /** `ParsedFlags`: the number of flag matches counted over all passes. */
  function ParsedFlags(s: Sarge): (n: nat)
  {
    s.flagCounter
  }
}

=== FILE: registry.dfy ===
/** The flag registry: the `Argument` records a `Sarge` object owns, the name lookups
    the parser and the queries perform on them, and registration (`SetArgument`,
    `SetArguments`). */
module Registry {
  import opened Wrappers

  /** One registered flag. `short`, `long`, `description` and `hasValue` are the
      definition; `value` and `parsed` are the results a parse writes into it. */
  datatype Argument = Argument(
    short: string,
    long: string,
    description: Option<string>,
    hasValue: bool,
    value: Option<string>,
    parsed: bool)

  /** The whole state of one parser object. Nothing in it is reset between parses. */
  datatype Sarge = Sarge(
    permissive: bool,
    allArgs: seq<Argument>,
    textArguments: seq<string>,
    flagCounter: nat,
    parsed: bool)

  /** A freshly constructed parser object; strict unless asked otherwise. */
  function NewSarge(permissive: bool := false): (s: Sarge)
  {
    Sarge(permissive, [], [], 0, false)
  }

  /** The registration copy of a definition: results start cleared. */
  function Fresh(short: string, long: string, desc: Option<string>, hasValue: bool): (a: Argument)
  {
    Argument(short, long, desc, hasValue, None, false)
  }

  /** Two records describe the same flag (their result fields may differ). */
  predicate SameDefinition(a: Argument, b: Argument)
  {
    a.short == b.short && a.long == b.long && a.description == b.description && a.hasValue == b.hasValue
  }

  /** What a name is compared against: the long name only (`--name` tokens), the short
      name only (cluster characters), or either one (the queries). */
  datatype Key = LongName(name: string) | ShortName(name: string) | AnyName(name: string)

  predicate Named(a: Argument, key: Key)
  {
    match key
    case LongName(n) => a.long == n
    case ShortName(n) => a.short == n
    case AnyName(n) => a.long == n || a.short == n
  }

  /** Outcome of a LINQ `Where(..).SingleOrDefault()`: no match (null), exactly one
      match, or more than one (which throws). */
  datatype Lookup = Missing | Unique(index: nat) | Duplicate

  /** The positions at or after `from` whose record answers to `key`, ascending. */
  function MatchesFrom(args: seq<Argument>, key: Key, from: nat): (r: seq<nat>)
    requires from <= |args|
    ensures forall k :: 0 <= k < |r| ==> from <= r[k] < |args| && Named(args[r[k]], key)
    ensures forall i :: from <= i < |args| && Named(args[i], key) ==> i in r
    ensures forall k, l :: 0 <= k < l < |r| ==> r[k] < r[l]
    decreases |args| - from
  {
    if from == |args| then []
    else if Named(args[from], key) then [from] + MatchesFrom(args, key, from + 1)
    else MatchesFrom(args, key, from + 1)
  }

  /** `SingleOrDefault` over the records answering to `key`. */
  function Select(args: seq<Argument>, key: Key): (r: Lookup)
    ensures r == Missing <==> forall i :: 0 <= i < |args| ==> !Named(args[i], key)
    ensures r.Unique? ==> r.index < |args| && Named(args[r.index], key)
    ensures r.Unique? ==> forall j :: 0 <= j < |args| && j != r.index ==> !Named(args[j], key)
    ensures r == Duplicate <==> exists i, j :: 0 <= i < j < |args| && Named(args[i], key) && Named(args[j], key)
  {
    var m := MatchesFrom(args, key, 0);
    if |m| == 0 then
      Missing
    else if |m| == 1 then
      Unique(m[0])
    else
      assert m[0] < m[1];
      Duplicate
  }

  /** The three outcomes of a lookup, each from the facts that decide it. */
  lemma SelectUnique(args: seq<Argument>, key: Key, i: nat)
    requires i < |args| && Named(args[i], key)
    requires forall j :: 0 <= j < |args| && j != i ==> !Named(args[j], key)
    ensures Select(args, key) == Unique(i)
  {
  }

  lemma SelectMissing(args: seq<Argument>, key: Key)
    requires forall j :: 0 <= j < |args| ==> !Named(args[j], key)
    ensures Select(args, key) == Missing
  {
  }

  /** Lookups only read the names, so they give the same answer on two registries that
      hold the same definitions with different results. */
  lemma {:induction false} MatchesFromNamesOnly(a: seq<Argument>, b: seq<Argument>, key: Key, from: nat)
    requires |a| == |b| && from <= |a|
    requires forall i :: 0 <= i < |a| ==> SameDefinition(a[i], b[i])
    ensures MatchesFrom(a, key, from) == MatchesFrom(b, key, from)
    decreases |a| - from
  {
    if from < |a| {
      MatchesFromNamesOnly(a, b, key, from + 1);
    }
  }

  lemma SelectNamesOnly(a: seq<Argument>, b: seq<Argument>, key: Key)
    requires |a| == |b|
    requires forall i :: 0 <= i < |a| ==> SameDefinition(a[i], b[i])
    ensures Select(a, key) == Select(b, key)
  {
    MatchesFromNamesOnly(a, b, key, 0);
  }

  /** `SetArgument`: appends a new definition with cleared results. No uniqueness check. */
  function SetArgument(s: Sarge, short: string, long: string, desc: Option<string>, hasValue: bool): (r: Sarge)
    ensures |r.allArgs| == |s.allArgs| + 1 && r.allArgs[..|s.allArgs|] == s.allArgs
    ensures r.allArgs[|s.allArgs|] == Fresh(short, long, desc, hasValue)
    ensures r.(allArgs := s.allArgs) == s
  {
    s.(allArgs := s.allArgs + [Fresh(short, long, desc, hasValue)])
  }

  /** `SetArguments`: registers each given definition in order; only the definition
      fields are copied, the given records' results are dropped. */
  function SetArguments(s: Sarge, defs: seq<Argument>): (r: Sarge)
    ensures |r.allArgs| == |s.allArgs| + |defs| && r.allArgs[..|s.allArgs|] == s.allArgs
    ensures forall j :: |s.allArgs| <= j < |r.allArgs| ==>
              SameDefinition(r.allArgs[j], defs[j - |s.allArgs|])
              && r.allArgs[j].value == None && !r.allArgs[j].parsed
    ensures r.(allArgs := s.allArgs) == s
    decreases |defs|
  {
    if |defs| == 0 then s
    else
      var d := defs[0];
      var s' := SetArgument(s, d.short, d.long, d.description, d.hasValue);
      var r := SetArguments(s', defs[1..]);
      assert r.allArgs[|s.allArgs|] == r.allArgs[..|s'.allArgs|][|s.allArgs|] == s'.allArgs[|s.allArgs|];
      assert r.allArgs[..|s.allArgs|] == r.allArgs[..|s'.allArgs|][..|s.allArgs|];
      r
  }

  /** Registering a name that was absent makes it resolve to the new record; a name the
      new record does not answer to resolves exactly as before. */
  lemma {:induction false} MatchesFromAppend(a: seq<Argument>, x: Argument, key: Key, from: nat)
    requires from <= |a|
    ensures MatchesFrom(a + [x], key, from)
         == MatchesFrom(a, key, from) + (if Named(x, key) then [|a|] else [])
    decreases |a| - from
  {
    if from < |a| {
      MatchesFromAppend(a, x, key, from + 1);
      assert (a + [x])[from] == a[from];
    } else {
      assert MatchesFrom(a + [x], key, from + 1) == [];
    }
  }

  lemma RegisterThenSelect(s: Sarge, short: string, long: string, desc: Option<string>, hasValue: bool, key: Key)
    ensures var r := SetArgument(s, short, long, desc, hasValue);
            var x := Fresh(short, long, desc, hasValue);
            && (!Named(x, key) ==> Select(r.allArgs, key) == Select(s.allArgs, key))
            && (Named(x, key) && Select(s.allArgs, key) == Missing ==> Select(r.allArgs, key) == Unique(|s.allArgs|))
            && (Named(x, key) && Select(s.allArgs, key) != Missing ==> Select(r.allArgs, key) == Duplicate)
  {
    MatchesFromAppend(s.allArgs, Fresh(short, long, desc, hasValue), key, 0);
  }
}

=== FILE: scenarios.dfy ===
/** Concrete runs against the registry of the demonstration program: `-h/--help`,
    `-k/--kittens <val>`, `-n/--number <val>`, `-a/--apple`, `-b/--bear` and the
    long-only `--snake`. */
module Scenarios {
  import opened Wrappers
  import opened Registry
  import opened Parser
  import opened Queries
  import opened ParserProperties

  /** The demonstration program's registrations, in its order. */
  function Demo(permissive: bool): (r: Sarge)
  {
    var s := NewSarge(permissive);
    var s := SetArgument(s, "h", "help", Some("Get help."), false);
    var s := SetArgument(s, "k", "kittens", Some("K is for kittens. Everyone needs kittens in their life."), true);
    var s := SetArgument(s, "n", "number", Some("Gimme a number. Any number."), true);
    var s := SetArgument(s, "a", "apple", Some("Just an apple."), false);
    var s := SetArgument(s, "b", "bear", Some("Look, it's a bear."), false);
    SetArgument(s, "", "snake", Some("Snakes only come in long form, there are no short snakes."), false)
  }

  /** The definitions of the demonstration registry, position by position. */
  predicate DemoShaped(a: seq<Argument>)
  {
    && |a| == 6
    && a[0].short == "h" && a[0].long == "help" && !a[0].hasValue
    && a[1].short == "k" && a[1].long == "kittens" && a[1].hasValue
    && a[2].short == "n" && a[2].long == "number" && a[2].hasValue
    && a[3].short == "a" && a[3].long == "apple" && !a[3].hasValue
    && a[4].short == "b" && a[4].long == "bear" && !a[4].hasValue
    && a[5].short == "" && a[5].long == "snake" && !a[5].hasValue
  }

  /** A demonstration object before its first pass, in the given mode. */
  predicate DemoStart(s: Sarge, permissive: bool)
  {
    && DemoShaped(s.allArgs)
    && (forall i :: 0 <= i < |s.allArgs| ==> !s.allArgs[i].parsed)
    && s.permissive == permissive && s.textArguments == [] && s.flagCounter == 0 && !s.parsed
  }

  lemma DemoIsStart(p: bool)
    ensures DemoStart(Demo(p), p)
  {
  }

  /** How the long names used below resolve in a registry with the demonstration names;
      `--h` finds nothing, long lookup never consults short names. */
  lemma DemoLongLookups(a: seq<Argument>)
    requires DemoShaped(a)
    ensures Select(a, LongName("help")) == Unique(0)
    ensures Select(a, LongName("kittens")) == Unique(1)
    ensures Select(a, LongName("snake")) == Unique(5)
    ensures Select(a, LongName("h")) == Missing
    ensures Select(a, LongName("bogus")) == Missing
  {
    SelectUnique(a, LongName("help"), 0);
    SelectUnique(a, LongName("kittens"), 1);
    SelectUnique(a, LongName("snake"), 5);
    SelectMissing(a, LongName("h"));
    SelectMissing(a, LongName("bogus"));
  }

  /** How the cluster characters used below resolve. */
  lemma DemoShortLookups(a: seq<Argument>)
    requires DemoShaped(a)
    ensures Select(a, ShortName("h")) == Unique(0)
    ensures Select(a, ShortName("k")) == Unique(1)
    ensures Select(a, ShortName("s")) == Missing
  {
    SelectUnique(a, ShortName("h"), 0);
    SelectUnique(a, ShortName("k"), 1);
    SelectMissing(a, ShortName("s"));
  }

  /** How the query names used below resolve; the empty name finds the long-only
      `snake`, whose short name is empty. */
  lemma DemoQueryLookups(a: seq<Argument>)
    requires DemoShaped(a)
    ensures Select(a, AnyName("help")) == Unique(0)
    ensures Select(a, AnyName("kittens")) == Unique(1)
    ensures Select(a, AnyName("k")) == Unique(1)
    ensures Select(a, AnyName("snake")) == Unique(5)
    ensures Select(a, AnyName("")) == Unique(5)
  {
    SelectUnique(a, AnyName("help"), 0);
    SelectUnique(a, AnyName("kittens"), 1);
    SelectUnique(a, AnyName("k"), 1);
    SelectUnique(a, AnyName("snake"), 5);
    SelectUnique(a, AnyName(""), 5);
  }

  // ---------------------------------------------------------------- runs

  /** A registry keeps the demonstration names through any parsing. */
  lemma DemoShapeKept(s: Sarge, r: Sarge)
    requires DemoShaped(s.allArgs) && Grows(s, r)
    ensures DemoShaped(r.allArgs)
  {
    assert forall i :: 0 <= i < 6 ==> SameDefinition(s.allArgs[i], r.allArgs[i]);
  }

  /** The object `--kittens cat foo` leaves behind. */
  lemma KittensParse(s: Sarge)
    requires DemoStart(s, false)
    ensures ParseArguments(s, ["--kittens", "cat", "foo"])
         == Success(Bind(Mark(s, 1), 1, "cat").(textArguments := ["foo"], parsed := true))
  {
    DemoLongLookups(s.allArgs);
    assert "--" + "kittens" == "--kittens";
    assert ["--kittens", "cat", "foo"] == ["--" + "kittens", "cat"] + ["foo"];
    LongValueFlagTakesNextToken(s, "kittens", 1, "cat", ["foo"]);
    var s1 := Bind(Mark(s, 1), 1, "cat");
    TextTokensAppended(s1, ["foo"]);
    assert s1.textArguments + ["foo"] == ["foo"];
  }

  /** `--kittens cat foo`: one flag with its value, one text argument. */
  lemma KittensWithText(s: Sarge)
    requires DemoStart(s, false)
    ensures var r := ParseArguments(s, ["--kittens", "cat", "foo"]);
            && r.Success?
            && ParsedFlags(r.value) == 1
            && GetFlag(r.value, "kittens") == Success(FlagAnswer(true, Some("cat")))
            && GetFlag(r.value, "k") == Success(FlagAnswer(true, Some("cat")))
            && GetTextArgument(r.value, 0) == Success(Some("foo"))
            && GetTextArgument(r.value, 1) == Success(None)
            && Exists(r.value, "help") == Success(false)
  {
    KittensParse(s);
    var r := Bind(Mark(s, 1), 1, "cat").(textArguments := ["foo"], parsed := true);
    DemoShapeKept(s, r);
    DemoQueryLookups(r.allArgs);
  }

  /** The object `-hk cat` leaves behind. */
  lemma ClusterParse(s: Sarge)
    requires DemoStart(s, false)
    ensures ParseArguments(s, ["-hk", "cat"]) == Success(Bind(Mark(Mark(s, 0), 1), 1, "cat").(parsed := true))
  {
    DemoShortLookups(s.allArgs);
    assert "-hk"[1..] == "hk" && "hk"[0] == 'h' && "hk"[1] == 'k';
    assert ['h'] == "h" && ['k'] == "k";
    var s1 := Mark(s, 0);
    DemoShapeKept(s, s1);
    DemoShortLookups(s1.allArgs);
    var s2 := Mark(s1, 1);
    assert Cluster(s1, "hk", 1) == Success(Progress(s2, Some(1)));
    assert Step(s, None, "-hk") == Success(Progress(s2, Some(1)));
    var tokens := ["-hk", "cat"];
    assert tokens[0] == "-hk" && tokens[1..] == ["cat"] + [];
    PendingTokenIsValue(s2, 1, "cat", []);
    var s3 := Bind(s2, 1, "cat");
    assert Run(s3, None, []) == Success(Progress(s3, None));
  }

  /** `-hk cat`: both cluster flags are matched and the last one takes the next token. */
  lemma ClusterEndingInValueFlag(s: Sarge)
    requires DemoStart(s, false)
    ensures var r := ParseArguments(s, ["-hk", "cat"]);
            && r.Success?
            && ParsedFlags(r.value) == 2
            && Exists(r.value, "help") == Success(true)
            && GetFlag(r.value, "kittens") == Success(FlagAnswer(true, Some("cat")))
            && r.value.textArguments == []
  {
    ClusterParse(s);
    var r := Bind(Mark(Mark(s, 0), 1), 1, "cat").(parsed := true);
    DemoShapeKept(s, r);
    DemoQueryLookups(r.allArgs);
  }

  /** `-kh cat`: the value flag is not last in its cluster; in either mode the pass
      aborts after `k` has been counted. */
  lemma ValueFlagFirstInCluster(s: Sarge, permissive: bool)
    requires DemoStart(s, permissive)
    ensures ParseArguments(s, ["-kh", "cat"]) == Failure(Abort(ValueFlagNotLast('k'), Mark(s, 1)))
  {
    DemoShortLookups(s.allArgs);
    assert "-kh"[1..] == "kh" && "kh"[0] == 'k';
    assert ['k'] == "k";
    ValueFlagInsideClusterAborts(s, "kh", 0, 1);
    var tokens := ["-kh", "cat"];
    assert tokens[0] == "-kh";
  }

  /** `--h`: long lookup ignores short names, so strict mode rejects it and
      permissive mode skips it. */
  lemma ShortNameAsLongFlag(s: Sarge, permissive: bool)
    requires DemoStart(s, permissive)
    ensures !permissive ==> ParseArguments(s, ["--h"]) == Failure(Abort(UnknownLongFlag("h"), s))
    ensures permissive ==> ParseArguments(s, ["--h"]) == Success(s.(parsed := true))
  {
    DemoLongLookups(s.allArgs);
    assert "--" + "h" == "--h";
    if permissive {
      UnknownLongFlagSkipped(s, "h", []);
      assert ["--h"] == ["--" + "h"] + [];
    } else {
      UnknownLongFlagStrict(s, "h");
    }
  }

  /** `pos1 -h`: a flag after a text argument aborts in strict mode and is matched in
      permissive mode. */
  lemma FlagAfterText(s: Sarge, permissive: bool)
    requires DemoStart(s, permissive)
    ensures var r := ParseArguments(s, ["pos1", "-h"]);
            && (!permissive ==> r.Failure? && r.error.kind == FlagsAfterText("-h"))
            && (permissive ==> r.Success? && r.value.textArguments == ["pos1"]
                               && Exists(r.value, "help") == Success(true) && ParsedFlags(r.value) == 1)
  {
    var tokens := ["pos1", "-h"];
    assert tokens[0] == "pos1" && tokens[1..] == ["-h"] && "pos1"[0] == 'p';
    assert s.textArguments + ["pos1"] == ["pos1"];
    var s1 := s.(textArguments := ["pos1"]);
    assert Step(s, None, "pos1") == Success(Progress(s1, None));
    if permissive {
      DemoShortLookups(s.allArgs);
      assert "-h"[1..] == "h" && "h"[0] == 'h' && ['h'] == "h";
      var s2 := Mark(s1, 0);
      assert Cluster(s1, "h", 0) == Success(Progress(s2, None));
      assert Run(s1, None, ["-h"]) == Success(Progress(s2, None));
      var r := s2.(parsed := true);
      assert ParseArguments(s, tokens) == Success(r);
      DemoShapeKept(s, r);
      DemoQueryLookups(r.allArgs);
    } else {
      StrictFlagAfterTextAborts(s1, "-h");
    }
  }

  /** `--bogus`: an unknown long flag aborts in strict mode; in permissive mode it is
      skipped, leaving no flag counted and no text argument. */
  lemma BogusLongFlag(s: Sarge, permissive: bool)
    requires DemoStart(s, permissive)
    ensures !permissive ==> ParseArguments(s, ["--bogus"]) == Failure(Abort(UnknownLongFlag("bogus"), s))
    ensures permissive ==> ParseArguments(s, ["--bogus"]) == Success(s.(parsed := true))
  {
    DemoLongLookups(s.allArgs);
    assert "--" + "bogus" == "--bogus";
    if permissive {
      UnknownLongFlagSkipped(s, "bogus", []);
      assert ["--bogus"] == ["--" + "bogus"] + [];
    } else {
      UnknownLongFlagStrict(s, "bogus");
    }
  }

  /** `-s`: no flag has the short name `s` (`snake` is long-only). */
  lemma UnknownClusterCharacter(s: Sarge, permissive: bool)
    requires DemoStart(s, permissive)
    ensures !permissive ==> ParseArguments(s, ["-s"]) == Failure(Abort(UnknownShortFlag('s'), s))
    ensures permissive ==> ParseArguments(s, ["-s"]) == Success(s.(parsed := true))
  {
    DemoShortLookups(s.allArgs);
    assert "-s"[1..] == "s" && "s"[0] == 's' && ['s'] == "s";
    assert ["-s"][0] == "-s" && ["-s"][1..] == [];
    if permissive {
      UnknownShortFlagSkipped(s, "s", 0);
    } else {
      UnknownShortFlagStrict(s, "s", 0);
    }
  }

  /** `--snake`: the long-only flag is seen, and since its short name is empty, asking
      for the empty name reports it too. */
  lemma LongOnlyFlag(s: Sarge)
    requires DemoStart(s, false)
    ensures var r := ParseArguments(s, ["--snake"]);
            && r.Success?
            && Exists(r.value, "snake") == Success(true)
            && Exists(r.value, "") == Success(true)
            && GetFlag(r.value, "snake") == Success(FlagAnswer(true, None))
  {
    DemoLongLookups(s.allArgs);
    assert "--snake"[2..] == "snake";
    var tokens := ["--snake"];
    assert tokens[0] == "--snake" && tokens[1..] == [];
    var s1 := Mark(s, 5);
    assert Step(s, None, "--snake") == Success(Progress(s1, None));
    var r := s1.(parsed := true);
    assert ParseArguments(s, tokens) == Success(r);
    DemoShapeKept(s, r);
    DemoQueryLookups(r.allArgs);
  }

  /** An empty argument and a lone dash are not text arguments: both abort. */
  lemma MalformedTokens(s: Sarge, permissive: bool)
    requires DemoStart(s, permissive)
    ensures ParseArguments(s, [""]) == Failure(Abort(EmptyToken, s))
    ensures ParseArguments(s, ["-"]) == Failure(Abort(LoneDash, s))
  {
    EmptyTokenAborts(s, []);
    assert [""] == [""] + [];
    LoneDashAborts(s);
    assert ["-"][0] == "-";
  }
}

=== FILE: wrappers.dfy ===
/** Wrappers shared by the model: an optional value (the source's nullable strings
    and references) and a success-or-error result (the source's exceptions). */
module Wrappers {

  /** A value that may be absent; stands for a C# `null`. */
  datatype Option<+T> = None | Some(value: T)

  /** Either a computed value or the error that aborted the computation. */
  datatype Result<+T, +E> = Success(value: T) | Failure(error: E)
}
